=== FILE: README.md ===
# signal.gl program layer in Dafny

This project models the program-management layer of signal.gl (`src/core/hooks.ts`), the part that
sits between compiled shader templates and the WebGL2 context:

- **Program cache**: a two-level map from the vertex template's identity, then the fragment template's
  identity, to a linked program. Entries are only ever inserted, never replaced (`ProgramCache`).
- **Update queue**: each program's insertion-ordered `Map` from a binding location to an update closure.
  `addToUpdateQueue` returns a remover for the location it set (`UpdateQueue`).
- **`createProgram` and `render`**: get the context, reuse or build the program, then bind the vertex shader
  and the fragment shader into one queue. `render` activates the program, flushes the queue in order, runs
  the optional `onRender` hook and issues one `drawArrays` (`Program`).
- **`createStack`**: checks the context. Its `render` renders every program once, in array order (`Stack`).
- **`read`**: merges the caller's configuration over the defaults. It sets up the render buffer again only
  when the merged configuration differs from the one cached for the context. Then it clears, renders and
  reads the pixels into the caller's output buffer (`Read`).
- **`createComputation`**: `updateOutput` reallocates the output buffer when needed. Each step renders and
  reads back into that buffer (`Computation`).

Modelling choices:

- Template strings arrays, contexts, programs, closures, hooks and typed arrays are opaque identities.
  They are compared only for equality, as JavaScript compares object references.
- Every WebGL call becomes an `Event` appended to a trace (`Gl`).
- Code this layer calls but does not contain becomes a parameter:
  - `createWebGLProgram` becomes the `built: Option<ProgramHandle>` it would return.
  - A shader's `bind` becomes the sequence of `(location, closure)` registrations it makes, in order.
  - `getTextureConfigFromTypedArray` becomes a `TextureDefaults` record.
  - The identity of a newly allocated typed array becomes `newRef`.
- Solid's `mergeProps` is modelled as a right-biased override: a field the caller leaves out keeps the
  default.
- `objectsAreEqual` is modelled as field-wise equality of the merged configuration. The output buffer is
  compared by identity.
- JavaScript numbers are unbounded integers.

Four behaviours of the code that the model keeps as written:

- There is one module-level program cache, shared by every canvas and context. It is not one cache per
  stack. `Program.CreateTwiceReuses` shows that a program cached for one context is handed to a program
  created on another context.
- `render` only issues `drawArrays`. There is no indexed draw.
- `read` returns the caller's `output` buffer and allocates nothing. Without a configuration its result is
  `undefined` (`None`).
- `createComputation` draws its six-vertex quad with a count of 4 (`Computation.CreateComputation`).
  A version with the count corrected to 6 is kept separately (`Computation.CreateComputationCorrected`;
  see "## Findings").

## Model

| member | source | states |
|---|---|---|
| UpdateQueue.Set | src/core/hooks.ts:106 | `set` keeps the length when the location is present and grows it by one otherwise |
| UpdateQueue.Delete | src/core/hooks.ts:106 | `delete` never grows the queue |
| UpdateQueue.Add | src/core/hooks.ts:103-106 | `addToUpdateQueue` leaves the location holding the new closure and returns a remover for exactly that location |
| UpdateQueue.Remove | src/core/hooks.ts:106 | after the remover runs, its location is absent from the queue |
| UpdateQueue.SetLookup | src/core/hooks.ts:106 | after `set`, the location holds the new closure and every other location keeps its closure |
| UpdateQueue.SetWellformed | src/core/hooks.ts:102-106 | the queue never holds two closures for one location |
| UpdateQueue.SetPresentInPlace | src/core/hooks.ts:106 | re-setting a present location keeps the iteration order and replaces only that entry's closure |
| UpdateQueue.SetAbsentAppends | src/core/hooks.ts:106 | setting a new location appends it at the end of the iteration order |
| UpdateQueue.DeleteLookup | src/core/hooks.ts:106 | the remover deletes its location and no other |
| UpdateQueue.DeleteAbsent | src/core/hooks.ts:106 | deleting an absent location changes nothing |
| UpdateQueue.DeleteCutsOut | src/core/hooks.ts:106 | deleting cuts out exactly the one entry and keeps the others in order |
| UpdateQueue.DeleteWellformed | src/core/hooks.ts:106 | deleting keeps locations distinct |
| UpdateQueue.DeleteAppend | src/core/hooks.ts:106 | deleting a location from two concatenated queues deletes it from each part |
| UpdateQueue.AddThenRemove | src/core/hooks.ts:103-106 | registering a new location and calling its remover restores the queue exactly |
| UpdateQueue.AddAllWellformed | src/core/hooks.ts:118-119 | a binder's sequence of registrations keeps locations distinct |
| UpdateQueue.AddAllConcat | src/core/hooks.ts:118-119 | registering one sequence and then another is the same as registering their concatenation |
| UpdateQueue.AddAllUnregistered | src/core/hooks.ts:118-119 | a location no registration names keeps the closure it had before |
| UpdateQueue.AddAllLookup | src/core/hooks.ts:118-119 | after a sequence of registrations, a location holds the closure of its last registration, wherever that is in the sequence |
| ProgramCache.Get | src/core/hooks.ts:135-138 | a lookup finds a program exactly when both the vertex key and the fragment key are present |
| ProgramCache.Set | src/core/hooks.ts:139-154 | the inner map is created only for a new vertex key; existing inner entries and other vertex keys are kept |
| ProgramCache.GetAfterSet | src/core/hooks.ts:148-153 | after storing, the pair maps to the earlier program if there was one, else to the new one |
| ProgramCache.SetPresentUnchanged | src/core/hooks.ts:151-153 | an existing entry is never overwritten |
| ProgramCache.SetOtherPairs | src/core/hooks.ts:148-153 | storing one pair leaves every other pair untouched, including other fragments under the same vertex |
| ProgramCache.SetIdempotent | src/core/hooks.ts:148-153 | storing the same pair twice is the same as storing it once |
| Program.Updates | src/core/hooks.ts:112 | the queue flush runs every closure once, in insertion order |
| Program.Render | src/core/hooks.ts:109-115 | render is `useProgram`, then the updates in queue order, then `onRender` when given, then `drawArrays(mode, first or 0, count)` |
| Program.RenderCounts | src/core/hooks.ts:109-115 | render activates the program once and draws once |
| Program.BoundQueue | src/core/hooks.ts:117-119 | the queue both binders fill keeps locations distinct |
| Program.BoundQueueLookup | src/core/hooks.ts:117-119 | the bound queue is the vertex registrations followed by the fragment ones in one queue; each location holds its last registration's closure, and a location neither shader registers is absent |
| Program.CreateProgram | src/core/hooks.ts:84-127 | a missing context throws; a success returns the canvas's context and the caller's configuration; its queue is the one both shaders bound into, which `render` flushes; when a build was needed, the program is the handle the build returned |
| Program.CreateProgramFails | src/core/hooks.ts:85-98 | creation fails exactly when there is no context, or when a build is needed and it fails |
| Program.BuildFailureThrows | src/core/hooks.ts:91-98 | a falsy build result throws and returns no program |
| Program.CacheHitReuses | src/core/hooks.ts:90-99 | on a cache hit the stored program is reused, nothing is built and the cache stays unchanged |
| Program.CacheDisabledIgnoresCache | src/core/hooks.ts:90-99 | with caching off the cache is neither read nor written, and the program is built |
| Program.CacheMissStores | src/core/hooks.ts:90-99 | a miss under caching stores the new program for its pair only |
| Program.CreateTwiceReuses | src/core/hooks.ts:90-99 | a second creation from the same template pair reuses the first program, whatever its canvas |
| Program.BindOrder | src/core/hooks.ts:93-119 | binding happens once per shader, vertex before fragment, against the returned program and after any build |
| Program.Register | src/core/hooks.ts:103-106 | registering on a live program is `Map.set` on its queue: the location gets the closure, every other location keeps its closure, a present location keeps its place, locations stay distinct, and the location's remover is returned |
| Program.Unregister | src/core/hooks.ts:106-112 | after the remover runs, the next render runs nothing for that location, and other locations are unchanged |
| Stack.CreateStack | src/core/hooks.ts:37-56 | a stack is created exactly when the canvas has a WebGL2 context; otherwise it throws |
| Stack.RenderAllSnoc | src/core/hooks.ts:54 | one more program appends exactly its own render to the stack's trace |
| Stack.RenderAllSegments | src/core/hooks.ts:54 | the stack's trace is each program's render laid end to end, in array order |
| Stack.RenderAllCounts | src/core/hooks.ts:54 | a stack render activates and draws exactly once per program |
| Read.Merge | src/core/hooks.ts:254-263 | defaults are `RGBA`, `UNSIGNED_BYTE`, `RGBA8` and the canvas size; each field the caller gives overrides its default |
| Read.Read | src/core/hooks.ts:253-287 | read returns the caller's output buffer and caches the merged configuration for the context |
| Read.ReadTrace | src/core/hooks.ts:265-284 | the render buffer is set up exactly when nothing, or something different, is cached; then come clear, render and `readPixels` |
| Read.ReadTwiceNoSetup | src/core/hooks.ts:265-271 | a repeated read with the same configuration does not set up the render buffer again |
| Read.ReadDraws | src/core/hooks.ts:273-274 | a read draws once per program of its target |
| Computation.UpdateOutput | src/core/hooks.ts:363-372 | the output is reallocated when it is missing or its constructor or length differs, and is kept otherwise; afterwards it has the input's constructor and length |
| Computation.UpdateOutputIdempotent | src/core/hooks.ts:363-372 | a second update for the same input keeps the output |
| Computation.ComputationProgramConfigAsWritten | src/core/hooks.ts:355-361 | as written, the computation draws fewer vertices than its quad holds |
| Computation.AsWrittenDropsSecondTriangle | src/core/hooks.ts:344-361 | as written, only 3 of the quad's 6 vertices are drawn |
| Computation.ComputationProgramConfig | src/core/hooks.ts:344-361 | corrected configuration: uncached, `TRIANGLES`, with a count that draws all six vertices of the quad |
| Computation.GetConfig | src/core/hooks.ts:330-342 | defaults are `R32F`, `RED`, the input's length by 1 and `FLOAT`; the typed-array defaults override them, and each of the caller's width, height, internal format, format and data type overrides both |
| Computation.CreateComputation | src/core/hooks.ts:318-374 | creation fails as `createProgram` does; on success the program is the uncached `TRIANGLES` program with count 4 and the built handle, the first output has the input's constructor and length, and the creation trace is the build then the vertex and fragment binds |
| Computation.CreateComputationCorrected | src/core/hooks.ts:318-374 | corrected creation: same failures, built handle, first output and creation trace, with a program that draws the whole quad |
| Computation.CorrectionChangesOnlyCount | src/core/hooks.ts:355-361 | the corrected creation differs from the as-written one only in the draw count, 6 instead of 4; the outcome, output and trace are the same |
| Computation.CreateComputationIgnoresCache | src/core/hooks.ts:355-361 | for any options and allocation, the computation's program never reads or writes the program cache |
| Computation.Step | src/core/hooks.ts:376-381 | each step keeps the output consistent with the buffer constructor and returns the output buffer, which has the input's constructor and length and is the previous buffer when nothing changed |
| Computation.StepDrawsTwice | src/core/hooks.ts:376-381 | each step draws twice, once directly and once inside `read` |
| Computation.StepReadsInputSize | src/core/hooks.ts:376-380 | without options, a step reads one row as wide as the input |

## Left out

- `autosize` (ResizeObserver and DOM writes) is not modelled, because it is event-driven DOM I/O.
- The float and half-float extension requests in `createStack` are not modelled. They are context queries
  with no observable result in this layer.
- `isProgramToken` and `filterProgramTokens` are not modelled. They are runtime type tests on arbitrary
  JavaScript values.
- `clear` is modelled as one `Clear` event. `renderBuffer` is modelled as one `SetupRenderBuffer` event.
  The individual framebuffer and renderbuffer calls are not modelled.
- Pixel contents are not modelled. `readPixels` records which buffer it fills, not what it writes.
- The template compiler (`glsl`, `attribute`, `uniform`), `createWebGLProgram` and the binders' internals
  are not part of this model. Shaders enter the model as their template identity, code and registrations.
- What an update closure does when it runs is not modelled. That includes closures that call `render`
  again to request a redraw. Each run is one opaque `RunUpdate` event.
- The `WeakMap` caches are modelled as maps that never lose entries. Garbage collection of unreachable
  keys is not observable here.
- Programs are held by value. A `StackToken`, a `read` target and a computation each hold a snapshot of
  their programs' update queues. In the source, `render` reads the live `Map`, so a registration or a
  remover call made after `createStack` changes what the next `render` runs. In this model the caller
  must pass tokens that hold the current queues (`Program.Register` and `Program.Unregister` produce them).
- `first || 0` is modelled for integers only. A `NaN` first vertex is not modelled.
- Computation.Step: the `input` accessor is read once per step. The source calls it several times and
  assumes it returns the same array each time.
- Computation.VerticesDrawn: the count of vertices that form whole primitives follows the OpenGL ES 3.0
  rule for separate triangles and separate lines. Rasterisation is not modelled.
- Read.Merge: `objectsAreEqual` is modelled as field-wise equality, because its definition is not part of
  this model.
- The Solid components, the `requestAnimationFrame` loop and the example applications are not modelled.
  They are framework and scheduling plumbing.

## Findings

| source | as written | input that shows it | evidently intended | confidence | as-written member | corrected member |
|---|---|---|---|---|---|---|
| src/core/hooks.ts:344-361 | the computation's program draws `count: 4` vertices in `TRIANGLES` mode, but its quad `a_vertices` holds 12 floats, which is 6 `vec2` vertices forming two triangles | any `createComputation` call: 4 vertices make one separate triangle, so vertices 4 to 6 (the second triangle) are never drawn | `count: 6`, so that both triangles of the full-screen quad are drawn | medium; not executed. The visible effect is small. The computation canvas keeps its default 300 by 150 viewport, and `read` reads one row `input.length` wide. In that row the first triangle covers pixels 0 to 298. An input shorter than 300 therefore loses no pixel that is read. A longer input loses only pixel 299 to the count; pixels from 300 on lie outside the viewport whatever the count is | Computation.ComputationProgramConfigAsWritten | Computation.ComputationProgramConfig |

=== FILE: computation.dfy ===
/**
 * `createComputation`: a full-screen program over one sampler input whose
 * step reallocates the output buffer when needed, renders, and reads the
 * pixels back into that buffer.
 */
module Computation {
  import opened Wrappers
  import opened Gl
  import ProgramCache
  import Program
  import Read

  /** The options `createComputation` accepts; every field may be left out. */
  datatype ComputationConfig = ComputationConfig(
    dataType: Option<DataType>,
    width: Option<int>,
    height: Option<int>,
    internalFormat: Option<InternalFormat>,
    format: Option<Format>)

  /** What the typed-array helper derives from the input's constructor; every field may be left out. */
  datatype TextureDefaults = TextureDefaults(
    internalFormat: Option<InternalFormat>,
    format: Option<Format>,
    dataType: Option<DataType>)

  /** The computation's mutable variables: the output buffer (undefined at first) and the buffer constructor. */
  datatype State = State(output: Option<TypedArray>, bufferType: ArrayKind)

  /** The output buffer, once allocated, was built by the current buffer constructor. */
  predicate Consistent(s: State)
  {
    s.output.Some? ==> s.output.value.kind == s.bufferType
  }

  /** The output must be allocated anew: there is none, or its constructor or length differs from the input's. */
  predicate Reallocates(s: State, input: TypedArray)
  {
    s.output.None? || s.output.value.kind != input.kind || s.output.value.length != input.length
  }

  /**
   * `updateOutput`. `newRef` is the identity of the array `new` would allocate.
   * Once the state is consistent, the output afterwards has the input's
   * constructor and length.
   */
  function UpdateOutput(s: State, input: TypedArray, newRef: nat): (r: State)
    ensures Consistent(s) ==> Consistent(r)
    ensures Consistent(s) ==> r.output.Some? && r.output.value.kind == input.kind && r.output.value.length == input.length
    ensures Reallocates(s, input) ==> r.output.Some? && r.output.value.ref == newRef
    ensures !Reallocates(s, input) ==> r == s
  {
    if s.output.None? || input.kind != s.output.value.kind then
      State(Some(TypedArray(newRef, input.kind, input.length)), input.kind)
    else if input.length != s.output.value.length then
      State(Some(TypedArray(newRef, s.bufferType, input.length)), s.bufferType)
    else
      s
  }

  /** Updating the output twice for the same input allocates at most once. */
  lemma UpdateOutputIdempotent(s: State, input: TypedArray, newRef1: nat, newRef2: nat)
    requires Consistent(s)
    ensures UpdateOutput(UpdateOutput(s, input, newRef1), input, newRef2) == UpdateOutput(s, input, newRef1)
  {
  }

  /**
   * The vertex data of the computation's full-screen quad: six `vec2`
   * vertices forming two triangles.
   */
  const QuadVertices: seq<int> := [-1, -1, 1, -1, -1, 1, -1, 1, 1, -1, 1, 1]

  function QuadVertexCount(): nat
  {
    |QuadVertices| / 2
  }

  /**
   * How many of `count` vertices a draw in `mode` turns into primitives:
   * separate triangles and separate lines ignore a trailing incomplete primitive.
   */
  function VerticesDrawn(mode: Mode, count: int): nat
  {
    if count <= 0 then 0
    else match mode
      case TRIANGLES => count - count % 3
      case LINES => count - count % 2
      case POINTS => count
  }

  /** The program configuration as the source writes it: `TRIANGLES` with a count of 4. */
  function ComputationProgramConfigAsWritten(canvas: Program.Canvas, vertex: Program.ShaderToken, fragment: Program.ShaderToken)
    : (r: Program.ProgramConfig)
    ensures !r.cacheEnabled && r.mode == TRIANGLES
    ensures VerticesDrawn(r.mode, r.count) < QuadVertexCount()
  {
    Program.ProgramConfig(canvas, false, 4, None, fragment, TRIANGLES, vertex, None)
  }

  /** The draw as written takes only the quad's first triangle; its last three vertices are never drawn. */
  lemma AsWrittenDropsSecondTriangle(canvas: Program.Canvas, vertex: Program.ShaderToken, fragment: Program.ShaderToken)
    ensures var c := ComputationProgramConfigAsWritten(canvas, vertex, fragment);
      VerticesDrawn(c.mode, c.count) == 3 && QuadVertexCount() == 6
  {
  }

  /** The program configuration the quad needs: `TRIANGLES` over all six vertices, caching left off. */
  function ComputationProgramConfig(canvas: Program.Canvas, vertex: Program.ShaderToken, fragment: Program.ShaderToken)
    : (r: Program.ProgramConfig)
    ensures !r.cacheEnabled && r.mode == TRIANGLES && r.first.None? && r.onRender.None?
    ensures VerticesDrawn(r.mode, r.count) == QuadVertexCount() == r.count
    ensures r.canvas == canvas && r.vertex == vertex && r.fragment == fragment
  {
    Program.ProgramConfig(canvas, false, QuadVertexCount(), None, fragment, TRIANGLES, vertex, None)
  }

  /** A created computation: its program, its options and its variables. */
  datatype Computation = Computation(program: Program.ProgramToken, config: Option<ComputationConfig>, state: State)

  /**
   * `getConfig`: `R32F`, `RED`, the input's length by one row, `FLOAT` and
   * the current output, overridden by the typed-array defaults, overridden by
   * the caller's options.
   */
  function GetConfig(input: TypedArray, output: Option<TypedArray>, tex: TextureDefaults, config: Option<ComputationConfig>)
    : (r: Read.ReadConfig)
    ensures r.output == output
    ensures r.width.Some? && r.height.Some? && r.internalFormat.Some? && r.format.Some? && r.dataType.Some?
    ensures (config.None? || config.value.width.None?) ==> r.width == Some(input.length as int)
    ensures (config.None? || config.value.height.None?) ==> r.height == Some(1)
    ensures config.Some? && config.value.width.Some? ==> r.width == config.value.width
    ensures config.Some? && config.value.height.Some? ==> r.height == config.value.height
    ensures config.Some? && config.value.internalFormat.Some? ==> r.internalFormat == config.value.internalFormat
    ensures config.Some? && config.value.format.Some? ==> r.format == config.value.format
    ensures config.Some? && config.value.dataType.Some? ==> r.dataType == config.value.dataType
    ensures (config.None? || config.value.internalFormat.None?) ==> r.internalFormat == Some(tex.internalFormat.GetOr(R32F))
    ensures (config.None? || config.value.format.None?) ==> r.format == Some(tex.format.GetOr(RED))
    ensures (config.None? || config.value.dataType.None?) ==> r.dataType == Some(tex.dataType.GetOr(FLOAT))
  {
    var c := config.GetOr(ComputationConfig(None, None, None, None, None));
    Read.ReadConfig(
      Some(c.width.GetOr(input.length)),
      Some(c.height.GetOr(1)),
      Some(c.internalFormat.GetOr(tex.internalFormat.GetOr(R32F))),
      Some(c.format.GetOr(tex.format.GetOr(RED))),
      Some(c.dataType.GetOr(tex.dataType.GetOr(FLOAT))),
      output)
  }

  /** A created computation and the trace of its program's creation (build and bind events). */
  datatype Setup = Setup(computation: Computation, trace: seq<Event>)

  /** Create a computation's program from `programConfig`, then allocate the first output for the input. */
  function CreateComputationWith(programConfig: Program.ProgramConfig, input: TypedArray, config: Option<ComputationConfig>,
                                 cache: ProgramCache.Cache, built: Option<ProgramHandle>, newRef: nat)
    : Result<Setup, Program.Error>
  {
    match Program.CreateProgram(programConfig, cache, built)
    case Err(e) => Err(e)
    case Ok(created) =>
      Ok(Setup(Computation(created.token, config, UpdateOutput(State(None, input.kind), input, newRef)), created.trace))
  }

  /**
   * `createComputation` as the source writes it: the uncached program drawing
   * 4 vertices in `TRIANGLES` mode on the computation canvas, then the first
   * output for the input.
   */
  function CreateComputation(input: TypedArray, canvas: Program.Canvas, vertex: Program.ShaderToken,
                             fragment: Program.ShaderToken, config: Option<ComputationConfig>,
                             cache: ProgramCache.Cache, built: Option<ProgramHandle>, newRef: nat)
    : (r: Result<Setup, Program.Error>)
    ensures canvas.webgl2.None? ==> r == Err(Program.WebGL2NotSupported)
    ensures canvas.webgl2.Some? && built.None? ==> r == Err(Program.ProgramBuildError)
    ensures canvas.webgl2.Some? && built.Some? ==> r.Ok? && r.value.computation.program.program == built.value
    ensures r.Ok? ==> r.value.computation.program.config == ComputationProgramConfigAsWritten(canvas, vertex, fragment)
    ensures r.Ok? ==> r.value.computation.program.config.count == 4 && r.value.computation.config == config
    ensures r.Ok? ==> Consistent(r.value.computation.state)
    ensures r.Ok? ==> r.value.computation.state.output == Some(TypedArray(newRef, input.kind, input.length))
    ensures r.Ok? ==> r.value.trace == [BuildProgram(vertex.code, fragment.code),
                                        Bind(VertexStage, vertex.template, built.value),
                                        Bind(FragmentStage, fragment.template, built.value)]
  {
    CreateComputationWith(ComputationProgramConfigAsWritten(canvas, vertex, fragment), input, config, cache, built, newRef)
  }

  /** `createComputation` with the corrected draw over the whole quad. */
  function CreateComputationCorrected(input: TypedArray, canvas: Program.Canvas, vertex: Program.ShaderToken,
                                      fragment: Program.ShaderToken, config: Option<ComputationConfig>,
                                      cache: ProgramCache.Cache, built: Option<ProgramHandle>, newRef: nat)
    : (r: Result<Setup, Program.Error>)
    ensures canvas.webgl2.None? ==> r == Err(Program.WebGL2NotSupported)
    ensures canvas.webgl2.Some? && built.None? ==> r == Err(Program.ProgramBuildError)
    ensures canvas.webgl2.Some? && built.Some? ==> r.Ok? && r.value.computation.program.program == built.value
    ensures r.Ok? ==> r.value.computation.program.config == ComputationProgramConfig(canvas, vertex, fragment)
    ensures r.Ok? ==> VerticesDrawn(r.value.computation.program.config.mode, r.value.computation.program.config.count)
                      == QuadVertexCount()
    ensures r.Ok? ==> Consistent(r.value.computation.state)
    ensures r.Ok? ==> r.value.computation.state.output == Some(TypedArray(newRef, input.kind, input.length))
    ensures r.Ok? ==> r.value.trace == [BuildProgram(vertex.code, fragment.code),
                                        Bind(VertexStage, vertex.template, built.value),
                                        Bind(FragmentStage, fragment.template, built.value)]
  {
    CreateComputationWith(ComputationProgramConfig(canvas, vertex, fragment), input, config, cache, built, newRef)
  }

  /** The correction changes the draw count and nothing else: same outcome, program, output and trace. */
  lemma CorrectionChangesOnlyCount(input: TypedArray, canvas: Program.Canvas, vertex: Program.ShaderToken,
                                   fragment: Program.ShaderToken, config: Option<ComputationConfig>,
                                   cache: ProgramCache.Cache, built: Option<ProgramHandle>, newRef: nat)
    ensures var w := CreateComputation(input, canvas, vertex, fragment, config, cache, built, newRef);
      var c := CreateComputationCorrected(input, canvas, vertex, fragment, config, cache, built, newRef);
      && (w.Ok? <==> c.Ok?)
      && (w.Ok? ==> var p := w.value.computation.program;
                    c.value == w.value.(computation := w.value.computation.(program := p.(config := p.config.(count := 6)))))
  {
  }

  /** The computation's program never reads or writes the program cache. */
  lemma CreateComputationIgnoresCache(input: TypedArray, canvas: Program.Canvas, vertex: Program.ShaderToken,
                                      fragment: Program.ShaderToken, config: Option<ComputationConfig>,
                                      c1: ProgramCache.Cache, c2: ProgramCache.Cache,
                                      built: Option<ProgramHandle>, newRef: nat)
    ensures var cfg := ComputationProgramConfigAsWritten(canvas, vertex, fragment);
      && (Program.CreateProgram(cfg, c1, built).Ok? ==> Program.CreateProgram(cfg, c1, built).value.cache == c1)
      && CreateComputation(input, canvas, vertex, fragment, config, c1, built, newRef)
         == CreateComputation(input, canvas, vertex, fragment, config, c2, built, newRef)
  {
    Program.CacheDisabledIgnoresCache(ComputationProgramConfigAsWritten(canvas, vertex, fragment), c1, c2, built);
  }

  datatype StepOutcome = StepOutcome(computation: Computation, result: Option<TypedArray>,
                                     readCache: Read.ReadCache, trace: seq<Event>)

  /**
   * The function `createComputation` returns: update the output, clear,
   * render, then `read` the program with `getConfig()` (which clears and
   * renders once more) and return what it read into.
   */
  function Step(c: Computation, input: TypedArray, newRef: nat, tex: TextureDefaults, readCache: Read.ReadCache)
    : (r: StepOutcome)
    ensures r.computation.program == c.program && r.computation.config == c.config
    ensures Consistent(c.state) ==> Consistent(r.computation.state)
    ensures r.result == r.computation.state.output
    ensures Consistent(c.state) ==> r.result.Some? && r.result.value.kind == input.kind && r.result.value.length == input.length
    ensures !Reallocates(c.state, input) ==> r.result == c.state.output
  {
    var s := UpdateOutput(c.state, input, newRef);
    var read := Read.Read(Read.OfProgram(c.program), Some(GetConfig(input, s.output, tex, c.config)), readCache);
    StepOutcome(c.(state := s), read.output, read.cache, [Clear] + Program.Render(c.program) + read.trace)
  }

  /** Every step draws twice: its own render and the one inside `read`. */
  lemma StepDrawsTwice(c: Computation, input: TypedArray, newRef: nat, tex: TextureDefaults, readCache: Read.ReadCache)
    ensures Draws(Step(c, input, newRef, tex, readCache).trace) == 2
  {
    var s := UpdateOutput(c.state, input, newRef);
    var cfg := Some(GetConfig(input, s.output, tex, c.config));
    var read := Read.Read(Read.OfProgram(c.program), cfg, readCache);
    Program.RenderCounts(c.program);
    Read.ReadDraws(Read.OfProgram(c.program), cfg, readCache);
    CountsAppend([Clear], Program.Render(c.program));
    CountsAppend([Clear] + Program.Render(c.program), read.trace);
  }

  /** A step reads `width` by `height` pixels of the input's length by one row, unless the caller's options say otherwise. */
  lemma StepReadsInputSize(c: Computation, input: TypedArray, newRef: nat, tex: TextureDefaults, readCache: Read.ReadCache)
    requires c.config.None?
    ensures var t := Step(c, input, newRef, tex, readCache).trace;
      t[|t| - 1].ReadPixels? && t[|t| - 1].width == input.length && t[|t| - 1].height == 1
  {
    var s := UpdateOutput(c.state, input, newRef);
    var cfg := Some(GetConfig(input, s.output, tex, c.config));
    Read.ReadTrace(Read.OfProgram(c.program), cfg, readCache);
  }
}

=== FILE: gl.dfy ===
/**
 * Opaque identities and the trace of graphics-context calls.
 *
 * Every object the program layer compares by reference (template strings
 * arrays, contexts, programs, closures, typed arrays) is a value that is only
 * ever compared for equality. Every WebGL call is an event appended to a trace.
 */
module Gl {
  import opened Wrappers

  /** Identity of a tagged template's strings array: the program-cache key. */
  datatype TemplateId = TemplateId(ref: nat)

  /** Identity of a `WebGL2RenderingContext`. */
  datatype ContextId = ContextId(ref: nat)

  /** Identity of a linked `WebGLProgram`. */
  datatype ProgramHandle = ProgramHandle(ref: nat)

  /** Identity of an update closure registered by a binder. */
  datatype UpdateFn = UpdateFn(ref: nat)

  /** Identity of the optional `onRender` hook. */
  datatype HookId = HookId(ref: nat)

  /** A key of the update queue: a uniform location object or an attribute index. */
  datatype Location = UniformLocation(ref: nat) | AttributeLocation(index: int)

  /** The draw modes a program may be created with. */
  datatype Mode = TRIANGLES | LINES | POINTS

  /** The two shader stages, in the order they are bound. */
  datatype Stage = VertexStage | FragmentStage

  datatype InternalFormat = RGBA8 | R8 | R32F | OtherInternalFormat(name: string)
  datatype Format = RGBA | RGB | RED | LUMINANCE | OtherFormat(name: string)
  datatype DataType = UNSIGNED_BYTE | FLOAT | OtherDataType(name: string)

  /** The constructor of a typed array. */
  datatype ArrayKind = Int8Array | Uint8Array | Int16Array | Int32Array | Float32Array | Float64Array

  /** A typed array: its identity, its constructor and its length (contents are not modelled). */
  datatype TypedArray = TypedArray(ref: nat, kind: ArrayKind, length: nat)

  /** One call into the graphics context, or into foreign code that issues such calls. */
  datatype Event =
    | BuildProgram(vertexCode: string, fragmentCode: string)
    | Bind(stage: Stage, template: TemplateId, program: ProgramHandle)
    | UseProgram(program: ProgramHandle)
    | RunUpdate(location: Location, update: UpdateFn)
    | OnRender(hook: HookId, program: ProgramHandle)
    | DrawArrays(mode: Mode, first: int, count: int)
    | SetupRenderBuffer(internalFormat: InternalFormat, width: int, height: int)
    | Clear
    | ReadPixels(width: int, height: int, format: Format, dataType: DataType, output: Option<TypedArray>)

  /** The number of draw calls in a trace. */
  function Draws(t: seq<Event>): nat
  {
    if |t| == 0 then 0
    else (if t[0].DrawArrays? then 1 else 0) + Draws(t[1..])
  }

  /** The number of program activations in a trace. */
  function Uses(t: seq<Event>): nat
  {
    if |t| == 0 then 0
    else (if t[0].UseProgram? then 1 else 0) + Uses(t[1..])
  }

  /** Counting draws and activations distributes over concatenation of traces. */
  lemma {:induction false} CountsAppend(a: seq<Event>, b: seq<Event>)
    ensures Draws(a + b) == Draws(a) + Draws(b)
    ensures Uses(a + b) == Uses(a) + Uses(b)
  {
    if |a| == 0 {
      assert a + b == b;
    } else {
      assert (a + b)[1..] == a[1..] + b;
      CountsAppend(a[1..], b);
    }
  }

  /** A trace made only of update events has no draw and no activation. */
  lemma {:induction false} UpdatesOnlyCounts(t: seq<Event>)
    requires forall i :: 0 <= i < |t| ==> t[i].RunUpdate?
    ensures Draws(t) == 0 && Uses(t) == 0
  {
    if |t| > 0 {
      UpdatesOnlyCounts(t[1..]);
    }
  }
}

=== FILE: program.dfy ===
/**
 * `createProgram`: obtain the canvas's WebGL2 context, reuse or build the
 * program, bind the vertex then the fragment shader into one update queue,
 * and expose `render`.
 */
module Program {
  import opened Wrappers
  import opened Gl
  import UpdateQueue
  import ProgramCache

  /** A canvas: its size and the context `getContext('webgl2')` yields, if any. */
  datatype Canvas = Canvas(width: nat, height: nat, webgl2: Option<ContextId>)

  /**
   * A compiled shader as `createProgram` sees it: its template's identity, its
   * source code, and the registrations its `bind` makes, in order.
   */
  datatype ShaderToken = ShaderToken(template: TemplateId, code: string, registrations: seq<UpdateQueue.Entry>)

  /** The errors `createProgram` and `createStack` throw. */
  datatype Error = WebGL2NotSupported | ProgramBuildError

  datatype ProgramConfig = ProgramConfig(
    canvas: Canvas,
    cacheEnabled: bool,
    count: int,
    first: Option<int>,
    fragment: ShaderToken,
    mode: Mode,
    vertex: ShaderToken,
    onRender: Option<HookId>)

  /** A created program; `queue` is the current state of its update queue. */
  datatype ProgramToken = ProgramToken(
    config: ProgramConfig,
    program: ProgramHandle,
    ctx: ContextId,
    queue: UpdateQueue.Queue)

  /** What a successful `createProgram` leaves behind. */
  datatype Created = Created(token: ProgramToken, cache: ProgramCache.Cache, trace: seq<Event>)

  /** One update event per queued closure, in iteration order. */
  function Updates(q: UpdateQueue.Queue): (t: seq<Event>)
    ensures |t| == |q|
    ensures forall i :: 0 <= i < |q| ==> t[i] == RunUpdate(q[i].location, q[i].update)
  {
    if |q| == 0 then [] else [RunUpdate(q[0].location, q[0].update)] + Updates(q[1..])
  }

  /** The `onRender` call, when a hook was given. */
  function Hook(p: ProgramToken): seq<Event>
  {
    match p.config.onRender
    case Some(h) => [OnRender(h, p.program)]
    case None => []
  }

  /** `render`: activate, flush the queue, run the hook, draw once. */
  function Render(p: ProgramToken): (t: seq<Event>)
    ensures |t| == |p.queue| + |Hook(p)| + 2
    ensures t[0] == UseProgram(p.program)
    ensures forall i :: 0 <= i < |p.queue| ==> t[1 + i] == RunUpdate(p.queue[i].location, p.queue[i].update)
    ensures p.config.onRender.Some? ==> t[|t| - 2] == OnRender(p.config.onRender.value, p.program)
    ensures t[|t| - 1] == DrawArrays(p.config.mode, p.config.first.GetOr(0), p.config.count)
  {
    [UseProgram(p.program)] + Updates(p.queue) + Hook(p)
      + [DrawArrays(p.config.mode, p.config.first.GetOr(0), p.config.count)]
  }

  /** A render activates its program exactly once and draws exactly once. */
  lemma RenderCounts(p: ProgramToken)
    ensures Draws(Render(p)) == 1
    ensures Uses(Render(p)) == 1
  {
    var u := Updates(p.queue);
    UpdatesOnlyCounts(u);
    CountsAppend([UseProgram(p.program)], u);
    CountsAppend([UseProgram(p.program)] + u, Hook(p));
    CountsAppend([UseProgram(p.program)] + u + Hook(p), [DrawArrays(p.config.mode, p.config.first.GetOr(0), p.config.count)]);
  }

  /** The queue both shaders' `bind` calls fill: vertex registrations first, then fragment ones. */
  function BoundQueue(config: ProgramConfig): (q: UpdateQueue.Queue)
    ensures UpdateQueue.Wellformed(q)
  {
    UpdateQueue.AddAllWellformed([], config.vertex.registrations);
    var afterVertex := UpdateQueue.AddAll([], config.vertex.registrations);
    UpdateQueue.AddAllWellformed(afterVertex, config.fragment.registrations);
    UpdateQueue.AddAll(afterVertex, config.fragment.registrations)
  }

  /**
   * `createProgram`. `built` is what `createWebGLProgram` would return for the
   * two shaders' code on a cache miss (`None` when building fails).
   */
  function CreateProgram(config: ProgramConfig, cache: ProgramCache.Cache, built: Option<ProgramHandle>)
    : (r: Result<Created, Error>)
    ensures config.canvas.webgl2.None? ==> r == Err(WebGL2NotSupported)
    ensures r.Ok? ==> config.canvas.webgl2 == Some(r.value.token.ctx)
    ensures r.Ok? ==> UpdateQueue.Wellformed(r.value.token.queue)
    ensures r.Ok? ==> r.value.token.config == config
    ensures r.Ok? ==> r.value.token.queue == BoundQueue(config)
    ensures r.Ok? && Builds(config, cache) ==> built == Some(r.value.token.program)
  {
    match config.canvas.webgl2
    case None => Err(WebGL2NotSupported)
    case Some(ctx) =>
      var cached := if config.cacheEnabled then ProgramCache.Get(cache, config.vertex.template, config.fragment.template) else None;
      var program := if cached.Some? then cached else built;
      var buildTrace := if cached.Some? then [] else [BuildProgram(config.vertex.code, config.fragment.code)];
      match program
      case None => Err(ProgramBuildError)
      case Some(handle) =>
        var cache' := if config.cacheEnabled
          then ProgramCache.Set(cache, config.vertex.template, config.fragment.template, handle)
          else cache;
        var bindTrace := [Bind(VertexStage, config.vertex.template, handle), Bind(FragmentStage, config.fragment.template, handle)];
        Ok(Created(ProgramToken(config, handle, ctx, BoundQueue(config)), cache', buildTrace + bindTrace))
  }

  /** Building happens exactly when caching is off or the pair has no cached program. */
  function Builds(config: ProgramConfig, cache: ProgramCache.Cache): bool
  {
    !config.cacheEnabled || ProgramCache.Get(cache, config.vertex.template, config.fragment.template).None?
  }

  /**
   * A cache hit reuses the stored program: nothing is built, the cache is
   * unchanged, and the result does not depend on what building would give.
   */
  lemma CacheHitReuses(config: ProgramConfig, cache: ProgramCache.Cache, built: Option<ProgramHandle>)
    requires config.canvas.webgl2.Some?
    requires config.cacheEnabled
    requires ProgramCache.Get(cache, config.vertex.template, config.fragment.template).Some?
    ensures CreateProgram(config, cache, built).Ok?
    ensures CreateProgram(config, cache, built).value.token.program
         == ProgramCache.Get(cache, config.vertex.template, config.fragment.template).value
    ensures CreateProgram(config, cache, built).value.cache == cache
    ensures forall e :: e in CreateProgram(config, cache, built).value.trace ==> !e.BuildProgram?
    ensures CreateProgram(config, cache, built) == CreateProgram(config, cache, None)
  {
    var h := ProgramCache.Get(cache, config.vertex.template, config.fragment.template).value;
    ProgramCache.SetPresentUnchanged(cache, config.vertex.template, config.fragment.template, h);
  }

  /**
   * With caching off the cache is neither read nor written: any two caches give
   * the same program and trace, and the build event is issued.
   */
  lemma CacheDisabledIgnoresCache(config: ProgramConfig, c1: ProgramCache.Cache, c2: ProgramCache.Cache,
                                  built: Option<ProgramHandle>)
    requires !config.cacheEnabled
    ensures CreateProgram(config, c1, built).Ok? <==> CreateProgram(config, c2, built).Ok?
    ensures CreateProgram(config, c1, built).Ok? ==>
      && CreateProgram(config, c1, built).value.cache == c1
      && CreateProgram(config, c1, built).value.token == CreateProgram(config, c2, built).value.token
      && CreateProgram(config, c1, built).value.trace == CreateProgram(config, c2, built).value.trace
      && CreateProgram(config, c1, built).value.trace[0] == BuildProgram(config.vertex.code, config.fragment.code)
  {
  }

  /** A miss with a failed build throws, and no program is returned. */
  lemma BuildFailureThrows(config: ProgramConfig, cache: ProgramCache.Cache)
    requires config.canvas.webgl2.Some?
    requires Builds(config, cache)
    ensures CreateProgram(config, cache, None) == Err(ProgramBuildError)
  {
  }

  /** `createProgram` fails exactly when there is no context, or when it must build and the build fails. */
  lemma CreateProgramFails(config: ProgramConfig, cache: ProgramCache.Cache, built: Option<ProgramHandle>)
    ensures CreateProgram(config, cache, built).Err? <==>
      config.canvas.webgl2.None? || (Builds(config, cache) && built.None?)
  {
  }

  /**
   * A miss with a successful build under caching stores the new program for
   * the pair, and every other pair keeps its entry.
   */
  lemma CacheMissStores(config: ProgramConfig, cache: ProgramCache.Cache, handle: ProgramHandle,
                        v: TemplateId, f: TemplateId)
    requires config.canvas.webgl2.Some?
    requires config.cacheEnabled
    requires ProgramCache.Get(cache, config.vertex.template, config.fragment.template).None?
    ensures CreateProgram(config, cache, Some(handle)).Ok?
    ensures CreateProgram(config, cache, Some(handle)).value.token.program == handle
    ensures ProgramCache.Get(CreateProgram(config, cache, Some(handle)).value.cache, v, f)
         == if v == config.vertex.template && f == config.fragment.template then Some(handle) else ProgramCache.Get(cache, v, f)
  {
    ProgramCache.GetAfterSet(cache, config.vertex.template, config.fragment.template, handle);
    if v != config.vertex.template || f != config.fragment.template {
      ProgramCache.SetOtherPairs(cache, config.vertex.template, config.fragment.template, handle, v, f);
    }
  }

  /**
   * Creating twice with caching on and the same template pair: the second
   * creation builds nothing and yields the first one's program, even when the
   * second canvas has a different context.
   */
  lemma CreateTwiceReuses(config1: ProgramConfig, config2: ProgramConfig, cache: ProgramCache.Cache,
                          built1: Option<ProgramHandle>, built2: Option<ProgramHandle>)
    requires config1.cacheEnabled && config2.cacheEnabled
    requires config1.vertex.template == config2.vertex.template
    requires config1.fragment.template == config2.fragment.template
    requires CreateProgram(config1, cache, built1).Ok?
    requires config2.canvas.webgl2.Some?
    ensures CreateProgram(config2, CreateProgram(config1, cache, built1).value.cache, built2).Ok?
    ensures CreateProgram(config2, CreateProgram(config1, cache, built1).value.cache, built2).value.token.program
         == CreateProgram(config1, cache, built1).value.token.program
    ensures !Builds(config2, CreateProgram(config1, cache, built1).value.cache)
  {
    var first := CreateProgram(config1, cache, built1).value;
    var v := config1.vertex.template;
    var f := config1.fragment.template;
    ProgramCache.GetAfterSet(cache, v, f, first.token.program);
    assert ProgramCache.Get(first.cache, v, f) == Some(first.token.program);
    CacheHitReuses(config2, first.cache, built2);
  }

  /**
   * Binding: exactly two bind events, vertex before fragment, against the
   * returned program, after any build event.
   */
  lemma BindOrder(config: ProgramConfig, cache: ProgramCache.Cache, built: Option<ProgramHandle>)
    requires CreateProgram(config, cache, built).Ok?
    ensures var c := CreateProgram(config, cache, built).value;
      && |c.trace| >= 2
      && c.trace[|c.trace| - 2] == Bind(VertexStage, config.vertex.template, c.token.program)
      && c.trace[|c.trace| - 1] == Bind(FragmentStage, config.fragment.template, c.token.program)
      && forall i :: 0 <= i < |c.trace| - 2 ==> c.trace[i].BuildProgram?
  {
  }

  /**
   * The shared queue after binding is the vertex registrations followed by
   * the fragment ones, registered into one queue: a location holds the closure
   * of its last registration across both, and a location neither shader
   * registers is absent.
   */
  lemma {:induction false} BoundQueueLookup(config: ProgramConfig, k: Location, j: nat)
    ensures BoundQueue(config) == UpdateQueue.AddAll([], config.vertex.registrations + config.fragment.registrations)
    ensures var regs := config.vertex.registrations + config.fragment.registrations;
      (j < |regs| && regs[j].location == k && (forall i :: j < i < |regs| ==> regs[i].location != k))
      ==> UpdateQueue.Lookup(BoundQueue(config), k) == Some(regs[j].update)
    ensures var regs := config.vertex.registrations + config.fragment.registrations;
      (forall i :: 0 <= i < |regs| ==> regs[i].location != k) ==> UpdateQueue.Lookup(BoundQueue(config), k) == None
  {
    var regs := config.vertex.registrations + config.fragment.registrations;
    UpdateQueue.AddAllConcat([], config.vertex.registrations, config.fragment.registrations);
    if j < |regs| && regs[j].location == k && (forall i :: j < i < |regs| ==> regs[i].location != k) {
      UpdateQueue.AddAllLookup([], regs, k, j);
    }
    if forall i :: 0 <= i < |regs| ==> regs[i].location != k {
      UpdateQueue.AddAllUnregistered([], regs, k);
    }
  }

  /** `addToUpdateQueue` on a live program: register a closure and get its remover. */
  function Register(p: ProgramToken, loc: Location, fn: UpdateFn): (r: (ProgramToken, UpdateQueue.Remover))
    ensures UpdateQueue.Wellformed(p.queue) ==> UpdateQueue.Wellformed(r.0.queue)
    ensures UpdateQueue.Lookup(r.0.queue, loc) == Some(fn)
    ensures forall k :: k != loc ==> UpdateQueue.Lookup(r.0.queue, k) == UpdateQueue.Lookup(p.queue, k)
    ensures r.0.queue == UpdateQueue.Set(p.queue, loc, fn)
    ensures r.1.location == loc
    ensures r.0.program == p.program && r.0.config == p.config && r.0.ctx == p.ctx
  {
    assert UpdateQueue.Wellformed(p.queue) ==> UpdateQueue.Wellformed(UpdateQueue.Set(p.queue, loc, fn)) by {
      if UpdateQueue.Wellformed(p.queue) { UpdateQueue.SetWellformed(p.queue, loc, fn); }
    }
    var (q, rm) := UpdateQueue.Add(p.queue, loc, fn);
    assert forall k :: k != loc ==> UpdateQueue.Lookup(q, k) == UpdateQueue.Lookup(p.queue, k) by {
      forall k | k != loc ensures UpdateQueue.Lookup(q, k) == UpdateQueue.Lookup(p.queue, k) {
        UpdateQueue.SetLookup(p.queue, loc, fn, k);
      }
    }
    (p.(queue := q), rm)
  }

  /** Calling a remover on a live program: that location no longer runs on the next render. */
  function Unregister(p: ProgramToken, rm: UpdateQueue.Remover): (r: ProgramToken)
    ensures UpdateQueue.Wellformed(p.queue) ==> UpdateQueue.Wellformed(r.queue)
    ensures forall e :: e in Render(r) && e.RunUpdate? ==> e.location != rm.location
    ensures forall k :: k != rm.location ==> UpdateQueue.Lookup(r.queue, k) == UpdateQueue.Lookup(p.queue, k)
  {
    assert UpdateQueue.Wellformed(p.queue) ==> UpdateQueue.Wellformed(UpdateQueue.Delete(p.queue, rm.location)) by {
      if UpdateQueue.Wellformed(p.queue) { UpdateQueue.DeleteWellformed(p.queue, rm.location); }
    }
    var r := p.(queue := UpdateQueue.Remove(p.queue, rm));
    forall i | 0 <= i < |r.queue| ensures r.queue[i].location != rm.location {
      UpdateQueue.LookupHas(r.queue, rm.location);
    }
    forall k | k != rm.location ensures UpdateQueue.Lookup(r.queue, k) == UpdateQueue.Lookup(p.queue, k) {
      UpdateQueue.DeleteLookup(p.queue, rm.location, k);
    }
    r
  }
}

=== FILE: program_cache.dfy ===
/**
 * The program cache of `createProgram`: a map keyed by the vertex template's
 * identity whose values are maps keyed by the fragment template's identity.
 * Entries are only ever inserted, never replaced or evicted.
 */
module ProgramCache {
  import opened Wrappers
  import opened Gl

  type Cache = map<TemplateId, map<TemplateId, ProgramHandle>>

  /** `getProgramCache`: the program stored for a (vertex, fragment) template pair, if any. */
  function Get(c: Cache, vertex: TemplateId, fragment: TemplateId): (r: Option<ProgramHandle>)
    ensures r.Some? <==> vertex in c && fragment in c[vertex]
    ensures r.Some? ==> r.value == c[vertex][fragment]
  {
    if vertex in c && fragment in c[vertex] then Some(c[vertex][fragment]) else None
  }

  /**
   * `setProgramCache`: create the inner map if the vertex template has none,
   * then store the program only if the pair has no program yet.
   */
  function Set(c: Cache, vertex: TemplateId, fragment: TemplateId, program: ProgramHandle): (r: Cache)
    ensures r.Keys == c.Keys + {vertex}
    ensures vertex in c ==> r[vertex].Keys == c[vertex].Keys + {fragment}
    ensures vertex in c ==> forall f :: f in c[vertex] ==> r[vertex][f] == c[vertex][f]
    ensures vertex !in c ==> r[vertex] == map[fragment := program]
    ensures forall v :: v in c && v != vertex ==> r[v] == c[v]
  {
    var inner := if vertex in c then c[vertex] else map[];
    var inner' := if fragment in inner then inner else inner[fragment := program];
    c[vertex := inner']
  }

  /** After storing, the pair maps to the program already there, or else to the new one. */
  lemma GetAfterSet(c: Cache, vertex: TemplateId, fragment: TemplateId, program: ProgramHandle)
    ensures Get(Set(c, vertex, fragment, program), vertex, fragment)
         == if Get(c, vertex, fragment).Some? then Get(c, vertex, fragment) else Some(program)
  {
  }

  /** An existing entry is never overwritten: storing over it leaves the cache as it was. */
  lemma SetPresentUnchanged(c: Cache, vertex: TemplateId, fragment: TemplateId, program: ProgramHandle)
    requires Get(c, vertex, fragment).Some?
    ensures Set(c, vertex, fragment, program) == c
  {
  }

  /** Storing one pair leaves every other pair's lookup unchanged, including other fragments under the same vertex. */
  lemma SetOtherPairs(c: Cache, vertex: TemplateId, fragment: TemplateId, program: ProgramHandle,
                      v: TemplateId, f: TemplateId)
    requires v != vertex || f != fragment
    ensures Get(Set(c, vertex, fragment, program), v, f) == Get(c, v, f)
  {
  }

  /** Storing a second time is a no-op, whatever program is offered. */
  lemma SetIdempotent(c: Cache, vertex: TemplateId, fragment: TemplateId, p: ProgramHandle, q: ProgramHandle)
    ensures Set(Set(c, vertex, fragment, p), vertex, fragment, q) == Set(c, vertex, fragment, p)
  {
  }
}

=== FILE: read.dfy ===
/**
 * `read`: merge the caller's read configuration over the defaults, set up the
 * render buffer again only when the merged configuration differs from the one
 * cached for the context, clear, render, and read the pixels into the
 * caller's output buffer.
 */
module Read {
  import opened Wrappers
  import opened Gl
  import Program
  import Stack

  /** The caller's read configuration; every field may be left out. */
  datatype ReadConfig = ReadConfig(
    width: Option<int>,
    height: Option<int>,
    internalFormat: Option<InternalFormat>,
    format: Option<Format>,
    dataType: Option<DataType>,
    output: Option<TypedArray>)

  /** The merged configuration: every field but the output buffer has a value. */
  datatype PixelConfig = PixelConfig(
    format: Format,
    dataType: DataType,
    internalFormat: InternalFormat,
    width: int,
    height: int,
    output: Option<TypedArray>)

  /** A stack or a program: both carry a canvas, a context and a `render`. */
  datatype Target = OfStack(stack: Stack.StackToken) | OfProgram(program: Program.ProgramToken)
  {
    function Canvas(): Program.Canvas
    {
      match this
      case OfStack(s) => s.config.canvas
      case OfProgram(p) => p.config.canvas
    }

    function Context(): ContextId
    {
      match this
      case OfStack(s) => s.ctx
      case OfProgram(p) => p.ctx
    }

    function Render(): seq<Event>
    {
      match this
      case OfStack(s) => Stack.Render(s)
      case OfProgram(p) => Program.Render(p)
    }
  }

  /** The configuration last used to set up each context's render buffer. */
  type ReadCache = map<ContextId, PixelConfig>

  datatype ReadOutcome = ReadOutcome(output: Option<TypedArray>, cache: ReadCache, trace: seq<Event>)

  /** The defaults (`RGBA`, `UNSIGNED_BYTE`, `RGBA8`, the canvas size) with the caller's fields over them. */
  function Merge(canvas: Program.Canvas, config: Option<ReadConfig>): (m: PixelConfig)
    ensures config.None? ==> m == PixelConfig(RGBA, UNSIGNED_BYTE, RGBA8, canvas.width, canvas.height, None)
    ensures config.Some? && config.value.width.Some? ==> m.width == config.value.width.value
    ensures config.Some? && config.value.width.None? ==> m.width == canvas.width
    ensures config.Some? && config.value.height.Some? ==> m.height == config.value.height.value
    ensures config.Some? && config.value.height.None? ==> m.height == canvas.height
    ensures config.Some? && config.value.format.Some? ==> m.format == config.value.format.value
    ensures config.Some? && config.value.format.None? ==> m.format == RGBA
    ensures config.Some? && config.value.dataType.Some? ==> m.dataType == config.value.dataType.value
    ensures config.Some? && config.value.dataType.None? ==> m.dataType == UNSIGNED_BYTE
    ensures config.Some? && config.value.internalFormat.Some? ==> m.internalFormat == config.value.internalFormat.value
    ensures config.Some? && config.value.internalFormat.None? ==> m.internalFormat == RGBA8
    ensures config.Some? ==> m.output == config.value.output
  {
    match config
    case None => PixelConfig(RGBA, UNSIGNED_BYTE, RGBA8, canvas.width, canvas.height, None)
    case Some(c) =>
      PixelConfig(
        c.format.GetOr(RGBA),
        c.dataType.GetOr(UNSIGNED_BYTE),
        c.internalFormat.GetOr(RGBA8),
        c.width.GetOr(canvas.width),
        c.height.GetOr(canvas.height),
        c.output)
  }

  /** The render buffer must be set up again: nothing is cached for the context, or something else is. */
  predicate NeedsSetup(cache: ReadCache, ctx: ContextId, m: PixelConfig)
  {
    ctx !in cache || cache[ctx] != m
  }

  /** `read(token, config)`. */
  function Read(target: Target, config: Option<ReadConfig>, cache: ReadCache): (r: ReadOutcome)
    ensures r.output == Merge(target.Canvas(), config).output
    ensures config.Some? ==> r.output == config.value.output
    ensures r.cache == cache[target.Context() := Merge(target.Canvas(), config)]
  {
    var m := Merge(target.Canvas(), config);
    var ctx := target.Context();
    var setup := if NeedsSetup(cache, ctx, m) then [SetupRenderBuffer(m.internalFormat, m.width, m.height)] else [];
    var trace := setup + [Clear] + target.Render() + [ReadPixels(m.width, m.height, m.format, m.dataType, m.output)];
    ReadOutcome(m.output, cache[ctx := m], trace)
  }

  /**
   * The trace: a render-buffer set-up first exactly when one is needed, then
   * a clear, the target's render, and the pixel read with the merged values.
   */
  lemma ReadTrace(target: Target, config: Option<ReadConfig>, cache: ReadCache)
    ensures var r := Read(target, config, cache);
      var m := Merge(target.Canvas(), config);
      var k := if NeedsSetup(cache, target.Context(), m) then 1 else 0;
      && |r.trace| == k + |target.Render()| + 2
      && (k == 1 <==> r.trace[0] == SetupRenderBuffer(m.internalFormat, m.width, m.height))
      && r.trace[k] == Clear
      && r.trace[k + 1..k + 1 + |target.Render()|] == target.Render()
      && r.trace[|r.trace| - 1] == ReadPixels(m.width, m.height, m.format, m.dataType, m.output)
  {
  }

  /** Reading again with the same target and configuration sets nothing up and leaves the cache as it was. */
  lemma ReadTwiceNoSetup(target: Target, config: Option<ReadConfig>, cache: ReadCache)
    ensures var r1 := Read(target, config, cache);
      var r2 := Read(target, config, r1.cache);
      && r2.cache == r1.cache
      && r2.trace[0] == Clear
      && !NeedsSetup(r1.cache, target.Context(), Merge(target.Canvas(), config))
  {
  }

  /** A read draws exactly as many times as the target's `render` does: once per program. */
  lemma ReadDraws(target: Target, config: Option<ReadConfig>, cache: ReadCache)
    ensures Draws(Read(target, config, cache).trace)
         == match target
            case OfStack(s) => |s.config.programs|
            case OfProgram(_) => 1
  {
    var m := Merge(target.Canvas(), config);
    var setup := if NeedsSetup(cache, target.Context(), m) then [SetupRenderBuffer(m.internalFormat, m.width, m.height)] else [];
    var last := [ReadPixels(m.width, m.height, m.format, m.dataType, m.output)];
    CountsAppend(setup, [Clear]);
    CountsAppend(setup + [Clear], target.Render());
    CountsAppend(setup + [Clear] + target.Render(), last);
    match target
    case OfStack(s) => Stack.RenderAllCounts(s.config.programs);
    case OfProgram(p) => Program.RenderCounts(p);
  }
}

=== FILE: stack.dfy ===
/** `createStack`: a canvas's context plus an ordered list of programs rendered one after another. */
module Stack {
  import opened Wrappers
  import opened Gl
  import Program

  datatype StackConfig = StackConfig(canvas: Program.Canvas, programs: seq<Program.ProgramToken>)

  datatype StackToken = StackToken(config: StackConfig, ctx: ContextId)

  /** `createStack`: fails when the canvas has no WebGL2 context. */
  function CreateStack(config: StackConfig): (r: Result<StackToken, Program.Error>)
    ensures r.Ok? <==> config.canvas.webgl2.Some?
    ensures r.Err? ==> r.error == Program.WebGL2NotSupported
    ensures r.Ok? ==> r.value.config == config && config.canvas.webgl2 == Some(r.value.ctx)
  {
    match config.canvas.webgl2
    case None => Err(Program.WebGL2NotSupported)
    case Some(ctx) => Ok(StackToken(config, ctx))
  }

  /** The stack's `render`: each program's `render`, in array order. */
  function RenderAll(programs: seq<Program.ProgramToken>): seq<Event>
  {
    if |programs| == 0 then [] else Program.Render(programs[0]) + RenderAll(programs[1..])
  }

  function Render(s: StackToken): seq<Event>
  {
    RenderAll(s.config.programs)
  }

  /** Rendering one more program appends exactly its render. */
  lemma {:induction false} RenderAllSnoc(programs: seq<Program.ProgramToken>, p: Program.ProgramToken)
    ensures RenderAll(programs + [p]) == RenderAll(programs) + Program.Render(p)
  {
    if |programs| == 0 {
      assert programs + [p] == [p];
    } else {
      assert (programs + [p])[1..] == programs[1..] + [p];
      RenderAllSnoc(programs[1..], p);
    }
  }

  /** Where program `i`'s render starts in the stack's trace. */
  function Offset(programs: seq<Program.ProgramToken>, i: nat): nat
    requires i <= |programs|
  {
    |RenderAll(programs[..i])|
  }

  /**
   * The stack's trace is the programs' renders laid end to end: program `i`'s
   * whole render sits at `Offset(programs, i)`, and the renders fill the trace.
   */
  lemma {:induction false} RenderAllSegments(programs: seq<Program.ProgramToken>, i: nat)
    requires i < |programs|
    ensures Offset(programs, i) + |Program.Render(programs[i])| == Offset(programs, i + 1)
    ensures Offset(programs, i + 1) <= |RenderAll(programs)|
    ensures RenderAll(programs)[Offset(programs, i)..Offset(programs, i + 1)] == Program.Render(programs[i])
  {
    assert programs[..i + 1] == programs[..i] + [programs[i]];
    RenderAllSnoc(programs[..i], programs[i]);
    RenderAllPrefix(programs, i + 1);
  }

  /** The trace of a prefix of the programs is a prefix of the whole trace. */
  lemma {:induction false} RenderAllPrefix(programs: seq<Program.ProgramToken>, n: nat)
    requires n <= |programs|
    ensures RenderAll(programs[..n]) <= RenderAll(programs)
    decreases |programs| - n
  {
    if n < |programs| {
      assert programs[..n + 1] == programs[..n] + [programs[n]];
      RenderAllSnoc(programs[..n], programs[n]);
      RenderAllPrefix(programs, n + 1);
    } else {
      assert programs[..n] == programs;
    }
  }

  /** A stack render activates and draws exactly once per program. */
  lemma {:induction false} RenderAllCounts(programs: seq<Program.ProgramToken>)
    ensures Draws(RenderAll(programs)) == |programs|
    ensures Uses(RenderAll(programs)) == |programs|
  {
    if |programs| > 0 {
      Program.RenderCounts(programs[0]);
      RenderAllCounts(programs[1..]);
      CountsAppend(Program.Render(programs[0]), RenderAll(programs[1..]));
    }
  }
}

=== FILE: update_queue.dfy ===
/**
 * The per-program update queue of `createProgram`: a JavaScript `Map` from a
 * binding location to an update closure. A `Map` iterates in insertion order,
 * `set` on a present key replaces the value in place, and `delete` removes the
 * key; the queue is therefore a sequence of entries with distinct locations.
 */
module UpdateQueue {
  import opened Wrappers
  import opened Gl

  datatype Entry = Entry(location: Location, update: UpdateFn)

  type Queue = seq<Entry>

  /** The closure a queue holds for `loc` (`Map.prototype.get`). */
  function Lookup(q: Queue, loc: Location): Option<UpdateFn>
  {
    if |q| == 0 then None
    else if q[0].location == loc then Some(q[0].update)
    else Lookup(q[1..], loc)
  }

  /** The locations of a queue, in iteration order. */
  function Keys(q: Queue): (ks: seq<Location>)
    ensures |ks| == |q|
    ensures forall i :: 0 <= i < |q| ==> ks[i] == q[i].location
  {
    if |q| == 0 then [] else [q[0].location] + Keys(q[1..])
  }

  /** No location occurs twice. */
  predicate Wellformed(q: Queue)
  {
    forall i, j :: 0 <= i < j < |q| ==> q[i].location != q[j].location
  }

  predicate Has(q: Queue, loc: Location)
  {
    exists i :: 0 <= i < |q| && q[i].location == loc
  }

  /** `Map.prototype.set`: replace the closure of a present location in place, else append. */
  function Set(q: Queue, loc: Location, fn: UpdateFn): (r: Queue)
    ensures Has(q, loc) ==> |r| == |q|
    ensures !Has(q, loc) ==> |r| == |q| + 1
  {
    if |q| == 0 then [Entry(loc, fn)]
    else if q[0].location == loc then [Entry(loc, fn)] + q[1..]
    else
      HasCons(q, loc);
      [q[0]] + Set(q[1..], loc, fn)
  }

  /** `Map.prototype.delete`: remove the entry of `loc`, keeping the others in order. */
  function Delete(q: Queue, loc: Location): (r: Queue)
    ensures |r| <= |q|
  {
    if |q| == 0 then []
    else if q[0].location == loc then Delete(q[1..], loc)
    else [q[0]] + Delete(q[1..], loc)
  }

  /** The handle `addToUpdateQueue` returns: calling it deletes its location. */
  datatype Remover = Remover(location: Location)

  /** `addToUpdateQueue(location, fn)`: set the entry, and hand back its remover. */
  function Add(q: Queue, loc: Location, fn: UpdateFn): (r: (Queue, Remover))
    ensures r.1.location == loc
    ensures Lookup(r.0, loc) == Some(fn)
  {
    SetLookup(q, loc, fn, loc);
    (Set(q, loc, fn), Remover(loc))
  }

  /** Calling a remover. */
  function Remove(q: Queue, rm: Remover): (r: Queue)
    ensures Lookup(r, rm.location) == None
  {
    DeleteLookup(q, rm.location, rm.location);
    Delete(q, rm.location)
  }

  /** Registering a sequence of entries one after the other, as a shader's `bind` does. */
  function AddAll(q: Queue, regs: seq<Entry>): Queue
    decreases |regs|
  {
    if |regs| == 0 then q
    else AddAll(Add(q, regs[0].location, regs[0].update).0, regs[1..])
  }

  /** A location is in a non-empty queue iff it is the head's or it is in the tail. */
  lemma HasCons(q: Queue, loc: Location)
    requires |q| > 0
    ensures Has(q, loc) <==> q[0].location == loc || Has(q[1..], loc)
  {
    if Has(q, loc) && q[0].location != loc {
      var i :| 0 <= i < |q| && q[i].location == loc;
      assert q[1..][i - 1] == q[i];
    }
    if Has(q[1..], loc) {
      var i :| 0 <= i < |q[1..]| && q[1..][i].location == loc;
      assert q[i + 1] == q[1..][i];
    }
  }

  /** The tail of a well-formed queue is well formed and does not repeat the head's location. */
  lemma WellformedTail(q: Queue)
    requires Wellformed(q)
    requires |q| > 0
    ensures Wellformed(q[1..])
    ensures !Has(q[1..], q[0].location)
  {
    forall i | 0 <= i < |q[1..]| ensures q[1..][i].location != q[0].location {
      assert q[1..][i] == q[i + 1];
    }
  }

  lemma {:induction false} LookupHas(q: Queue, loc: Location)
    ensures Lookup(q, loc).Some? <==> Has(q, loc)
  {
    if |q| > 0 {
      LookupHas(q[1..], loc);
      HasCons(q, loc);
    }
  }

  /** After `set`, the location holds the new closure and every other location is unchanged. */
  lemma {:induction false} SetLookup(q: Queue, loc: Location, fn: UpdateFn, k: Location)
    ensures Lookup(Set(q, loc, fn), k) == if k == loc then Some(fn) else Lookup(q, k)
  {
    if |q| > 0 && q[0].location != loc {
      SetLookup(q[1..], loc, fn, k);
    }
  }

  /** `set` never duplicates a location. */
  lemma {:induction false} SetWellformed(q: Queue, loc: Location, fn: UpdateFn)
    requires Wellformed(q)
    ensures Wellformed(Set(q, loc, fn))
  {
    if |q| > 0 && q[0].location != loc {
      WellformedTail(q);
      SetWellformed(q[1..], loc, fn);
      var t := Set(q[1..], loc, fn);
      SetLookup(q[1..], loc, fn, q[0].location);
      LookupHas(t, q[0].location);
      LookupHas(q[1..], q[0].location);
      assert !Has(t, q[0].location);
      var r := Set(q, loc, fn);
      assert r == [q[0]] + t;
      forall a, b | 0 <= a < b < |r| ensures r[a].location != r[b].location {
        assert r[b] == t[b - 1];
        if a > 0 { assert r[a] == t[a - 1]; }
      }
    }
  }

  /** Re-setting a present location keeps every entry in its place and replaces only that closure. */
  lemma {:induction false} SetPresentInPlace(q: Queue, loc: Location, fn: UpdateFn)
    requires Wellformed(q)
    requires Has(q, loc)
    ensures |Set(q, loc, fn)| == |q|
    ensures Keys(Set(q, loc, fn)) == Keys(q)
    ensures forall i :: 0 <= i < |q| ==>
      Set(q, loc, fn)[i] == (if q[i].location == loc then Entry(loc, fn) else q[i])
  {
    var r := Set(q, loc, fn);
    if q[0].location == loc {
      forall i | 0 < i < |q| ensures q[i].location != loc { }
    } else {
      HasCons(q, loc);
      WellformedTail(q);
      SetPresentInPlace(q[1..], loc, fn);
      forall i | 0 < i < |q|
        ensures r[i] == (if q[i].location == loc then Entry(loc, fn) else q[i])
      {
        assert r[i] == Set(q[1..], loc, fn)[i - 1];
        assert q[1..][i - 1] == q[i];
      }
    }
  }

  /** Setting an absent location appends it at the end of the iteration order. */
  lemma {:induction false} SetAbsentAppends(q: Queue, loc: Location, fn: UpdateFn)
    requires !Has(q, loc)
    ensures Set(q, loc, fn) == q + [Entry(loc, fn)]
  {
    if |q| > 0 {
      HasCons(q, loc);
      SetAbsentAppends(q[1..], loc, fn);
      assert [q[0]] + (q[1..] + [Entry(loc, fn)]) == q + [Entry(loc, fn)];
    }
  }

  /** After `delete`, the location is gone and every other location is unchanged. */
  lemma {:induction false} DeleteLookup(q: Queue, loc: Location, k: Location)
    ensures Lookup(Delete(q, loc), k) == if k == loc then None else Lookup(q, k)
  {
    if |q| > 0 {
      DeleteLookup(q[1..], loc, k);
    }
  }

  /** Deleting an absent location leaves the queue as it was. */
  lemma {:induction false} DeleteAbsent(q: Queue, loc: Location)
    requires !Has(q, loc)
    ensures Delete(q, loc) == q
  {
    if |q| > 0 {
      HasCons(q, loc);
      DeleteAbsent(q[1..], loc);
    }
  }

  /** In a well-formed queue, `delete` cuts out exactly the one entry of `loc`. */
  lemma {:induction false} DeleteCutsOut(q: Queue, i: nat)
    requires Wellformed(q)
    requires i < |q|
    ensures Delete(q, q[i].location) == q[..i] + q[i + 1..]
  {
    var loc := q[i].location;
    if i == 0 {
      WellformedTail(q);
      DeleteAbsent(q[1..], loc);
      assert q[..0] + q[1..] == q[1..];
    } else {
      assert q[1..][i - 1] == q[i];
      WellformedTail(q);
      DeleteCutsOut(q[1..], i - 1);
      assert q[1..][..i - 1] + q[1..][i..] == q[1..i] + q[i + 1..];
      assert [q[0]] + (q[1..i] + q[i + 1..]) == q[..i] + q[i + 1..];
    }
  }

  /** `delete` keeps a well-formed queue well formed. */
  lemma {:induction false} DeleteWellformed(q: Queue, loc: Location)
    requires Wellformed(q)
    ensures Wellformed(Delete(q, loc))
  {
    if Has(q, loc) {
      var i :| 0 <= i < |q| && q[i].location == loc;
      DeleteCutsOut(q, i);
      var r := q[..i] + q[i + 1..];
      forall a, b | 0 <= a < b < |r| ensures r[a].location != r[b].location {
        var a' := if a < i then a else a + 1;
        var b' := if b < i then b else b + 1;
        assert r[a] == q[a'] && r[b] == q[b'];
      }
    } else {
      DeleteAbsent(q, loc);
    }
  }

  /** `delete` distributes over concatenation. */
  lemma {:induction false} DeleteAppend(a: Queue, b: Queue, loc: Location)
    ensures Delete(a + b, loc) == Delete(a, loc) + Delete(b, loc)
  {
    if |a| == 0 {
      assert a + b == b;
    } else {
      assert (a + b)[1..] == a[1..] + b;
      DeleteAppend(a[1..], b, loc);
    }
  }

  /**
   * Registering a fresh location and calling the remover it returned gives
   * back the queue as it was.
   */
  lemma AddThenRemove(q: Queue, loc: Location, fn: UpdateFn)
    requires !Has(q, loc)
    ensures Remove(Add(q, loc, fn).0, Add(q, loc, fn).1) == q
  {
    SetAbsentAppends(q, loc, fn);
    DeleteAppend(q, [Entry(loc, fn)], loc);
    DeleteAbsent(q, loc);
  }

  /** Registering a sequence of entries keeps the queue well formed. */
  lemma {:induction false} AddAllWellformed(q: Queue, regs: seq<Entry>)
    requires Wellformed(q)
    ensures Wellformed(AddAll(q, regs))
    decreases |regs|
  {
    if |regs| > 0 {
      SetWellformed(q, regs[0].location, regs[0].update);
      AddAllWellformed(Set(q, regs[0].location, regs[0].update), regs[1..]);
    }
  }

  /** Registering `x` and then `y` is registering `x + y`. */
  lemma {:induction false} AddAllConcat(q: Queue, x: seq<Entry>, y: seq<Entry>)
    ensures AddAll(AddAll(q, x), y) == AddAll(q, x + y)
    decreases |x|
  {
    if |x| == 0 {
      assert x + y == y;
    } else {
      assert (x + y)[0] == x[0];
      assert (x + y)[1..] == x[1..] + y;
      AddAllConcat(Add(q, x[0].location, x[0].update).0, x[1..], y);
    }
  }

  /** A location never registered keeps the closure it had before the sequence. */
  lemma {:induction false} AddAllUnregistered(q: Queue, regs: seq<Entry>, k: Location)
    requires forall i :: 0 <= i < |regs| ==> regs[i].location != k
    ensures Lookup(AddAll(q, regs), k) == Lookup(q, k)
    decreases |regs|
  {
    if |regs| > 0 {
      SetLookup(q, regs[0].location, regs[0].update, k);
      AddAllUnregistered(Set(q, regs[0].location, regs[0].update), regs[1..], k);
    }
  }

  /**
   * Registering a sequence: a location holds the closure of its last
   * registration `j`, wherever in the sequence that is.
   */
  lemma {:induction false} AddAllLookup(q: Queue, regs: seq<Entry>, k: Location, j: nat)
    requires j < |regs| && regs[j].location == k
    requires forall i :: j < i < |regs| ==> regs[i].location != k
    ensures Lookup(AddAll(q, regs), k) == Some(regs[j].update)
    decreases |regs|
  {
    var q' := Set(q, regs[0].location, regs[0].update);
    if j == 0 {
      SetLookup(q, regs[0].location, regs[0].update, k);
      AddAllUnregistered(q', regs[1..], k);
    } else {
      AddAllLookup(q', regs[1..], k, j - 1);
    }
  }
}

=== FILE: wrappers.dfy ===
/** `Option` for JavaScript values that may be `undefined`, and `Result` for operations that may throw. */
module Wrappers {

  /** An optional value: a JavaScript property that may be `undefined`. */
  datatype Option<+T> = None | Some(value: T) {

    /** The value, or `default` when absent (the `x || default` idiom on a non-zero value). */
    function GetOr(default: T): T {
      match this
      case Some(v) => v
      case None => default
    }
  }

  /** Either a value or the error the source throws instead of returning. */
  datatype Result<+T, +E> = Ok(value: T) | Err(error: E)
}
